=== FILE: README.md ===
# WindowButtonsView — a Dafny model of the traffic-light controller

WindowButtonsView is a macOS view that draws its own close, miniaturize and
zoom/full-screen buttons. Under the AppKit plumbing sits a small piece of decision
logic:

- which kind each button is;
- which window action a click triggers, and which delegate hooks run around it;
- which buttons are enabled for the host window's capabilities;
- whether the zoom button offers zoom, full screen or leaving full screen;
- whether the symbols are revealed;
- what the cell draws: which background, whether the pressed overlay, whether the glyph.

This project models that logic as pure functions over immutable datatypes and proves
its properties. It covers both versions in the repository: the current one
(`Sources/`) and the legacy one (`WindowButtonsView/`). Lemmas make the differences
between the two versions explicit.

Modules, one per source concern:

| module | file | models |
|---|---|---|
| `Options` | options.dfy | Swift optionals |
| `Windows` | windows.dfy | the NSWindow capability flags and main status, read through an optional window |
| `ButtonTypes` | button_types.dfy | `WindowButtonType`: kinds, slot index, default images, window actions |
| `Buttons` | buttons.dfy | current `WindowButton` / `WindowButtonCell`: fields, accessors, draw decisions |
| `ButtonsView` | buttons_view.dfy | current `WindowButtonsView`: state, events, click traces |
| `ViewProperties` | view_properties.dfy | the current view's inspectable image properties |
| `LegacyButtons` | legacy_buttons.dfy | legacy cell defaults and draw decisions |
| `LegacyButtonsView` | legacy_buttons_view.dfy | legacy controller, compared with the current one |

Modelling choices:

- The window is an `Option<Window>`, where `None` means the view is in no window.
  Each event receives the window as it is at that moment.
- Swift's `window?.x == true` becomes `w.Some? && x`.
- `window?.inFullScreen == false` becomes `w.Some? && !inFullScreen`. So without a
  window, miniaturize is disabled because the window is missing, not because of full screen.
- Images are opaque names. A button's icon is optional, as `NSButton.image` is.
- A click takes `delegate: Option<bool>`. `None` means there is no delegate, so no
  hook runs. `Some(b)` means there is a delegate and its will-hook answers `b`.
- A click yields a trace of calls: `WillPerform`, `Perform(action)` and `DidPerform`.
- The `fatalError` defaults of the zoom-icon switches are `assert false` branches, and
  the verifier proves them unreachable.
- The legacy click switch needs no default arm because its four cases are exhaustive.
- The legacy `WindowButtonType` enum is not part of this model. The legacy view reuses
  `ButtonTypes.ButtonType`, which has the same three cases.

Behaviour of the code worth noting:

- The hover round trip (enter, then exit) restores symbol visibility only when the
  mouse was outside before. An exit always hides the symbols, whatever the earlier state
  (`ButtonsView.HoverRoundTrip`, `ButtonsView.ExitForgetsEnter`).
- A click performs no window action when there is no window or the delegate vetoes it.
  With no delegate, no hook runs at all.
- In both versions, did-perform runs even when there is no window.
- Both versions disable miniaturize in full screen. They differ on the close button:
  only the legacy version also disables close in full screen.

## Model

| member | source | states |
|---|---|---|
| ButtonTypes.Index | Sources/WindowButton.swift:46-55 | every kind's slot is one of the three slots of the row |
| ButtonTypes.IndexIdentifiesButton | Sources/WindowButton.swift:46-55 | two kinds share a slot iff they are the same button; the zoom slot ignores the full-screen flag |
| ButtonTypes.SlotsAreIndexed | Sources/WindowButtonsView.swift:31 | the view's array literal puts the kind with index i at position i, and every kind's slot holds that button |
| ButtonTypes.DefaultBackgroundImage | Sources/WindowButton.swift:21-30 | the default active background is "closeBackground", "miniaturizeBackground" or "fullscreenBackground", each for exactly one button |
| ButtonTypes.DefaultUnactiveBackgroundImage | Sources/WindowButton.swift:31-34 | every kind's default inactive background is "unactiveBackground", which differs from its active one |
| ButtonTypes.DefaultImage | Sources/WindowButton.swift:35-44 | the default icon is "close", "miniaturize" or "zoom", each for exactly one button, and never one of its backgrounds |
| ButtonTypes.ZoomDefaultsIgnoreFlag | Sources/WindowButton.swift:21-44 | the zoom kind's default icon is "zoom" and its background "fullscreenBackground" for both flag values |
| ButtonTypes.DefaultsFollowButton | Sources/WindowButton.swift:21-44 | two kinds share a default icon or active background iff they are the same button; all share "unactiveBackground", which is no kind's active background |
| ButtonTypes.Action | Sources/WindowButton.swift:57-83 | one window action whose effect is what the button is for; it is a perform variant iff perform was asked and the effect has one (not full-screen toggling) |
| ButtonTypes.ActionIsDetermined | Sources/WindowButton.swift:57-83 | effect plus variant fix the action, so Action's contract specifies it completely |
| ButtonTypes.FullscreenIgnoresPerform | Sources/WindowButton.swift:80-83 | zoom(fullscreen: true) toggles full screen whatever perform is |
| ButtonTypes.ActionTable | Sources/WindowButton.swift:57-79 | perform maps close, miniaturize, zoom to performClose, performMiniaturize, performZoom; direct maps them to close, miniaturize, zoom |
| Buttons.CellDefaults | Sources/WindowButton.swift:166-171 | a cell starts as a close button with the close background, the shared inactive background and hidden symbols |
| Buttons.NewButton | Sources/WindowButton.swift:89-98 | a new button's kind is the given one; its icon, background and inactive background are that kind's defaults; symbols hidden |
| Buttons.NewCloseButtonMatchesCellDefaults | Sources/WindowButton.swift:89-98 | a new close button agrees with the cell defaults except for its icon |
| Buttons.SetKind | Sources/WindowButton.swift:112-120 | the type setter reads back and changes no other field |
| Buttons.SetDisplaySymbol | Sources/WindowButton.swift:122-130 | the displaySymbol setter reads back and changes no other field |
| Buttons.SetBackgroundImage | Sources/WindowButton.swift:132-140 | the backgroundImage setter reads back and changes no other field |
| Buttons.SetUnactiveBackgroundImage | Sources/WindowButton.swift:142-150 | the unactiveBackgroundImage setter reads back and changes no other field |
| Buttons.Draw | Sources/WindowButton.swift:187-232 | active background iff (main window or symbols revealed) and enabled; overlay iff highlighted; glyph iff revealed, enabled and an icon exists, and then it is the icon |
| Buttons.DisabledIsInactive | Sources/WindowButton.swift:192 | a disabled button shows its inactive background and no glyph, whatever the window and hover state |
| Buttons.GlyphOnlyOverActive | Sources/WindowButton.swift:192-232 | whenever a glyph is drawn, the active background is under it |
| Buttons.RevealedEnabledIsActive | Sources/WindowButton.swift:192 | revealed symbols make an enabled button active even in a non-main window |
| Buttons.HighlightOnlyAddsOverlay | Sources/WindowButton.swift:201-226 | pressing changes nothing in the drawing but the overlay |
| Windows.FullScreenTests | Sources/WindowButtonsView.swift:210-212 | with a window, "not in full screen" is the negation of "in full screen"; without one, both tests fail |
| ButtonsView.ButtonFor | Sources/WindowButtonsView.swift:196-198 | button(for:) returns a button of the asked-for kind, and the only one in the row |
| ButtonsView.ShowSymbols | Sources/WindowButtonsView.swift:230-236 | every button takes the given symbol visibility and no other field of any button changes |
| ButtonsView.Init | Sources/WindowButtonsView.swift:31-112 | a new view satisfies the invariant; its buttons are new close, miniaturize and zoom buttons; mouse outside, option up, forceAction off; zoom icons "zoom", "fullscreen", "fullscreenOff" and inactive background "unactiveBackground" |
| ButtonsView.UpdateButtonsState | Sources/WindowButtonsView.swift:209-213 | close enabled iff the window can close; miniaturize iff it can miniaturize and is not in full screen; no window disables both; zoom button untouched |
| ButtonsView.ZoomButton | Sources/WindowButtonsView.swift:266-282 | the zoom kind and icon follow the table: in full screen fullscreen-off; else full screen when allowed and option is up; else zoom; no window gives zoom; the enabled flag and other fields are untouched; the fatalError arm is unreachable |
| ButtonsView.UpdateZoomAndFullscreenButton | Sources/WindowButtonsView.swift:266-282 | only the zoom slot changes, and the invariant is kept |
| ButtonsView.SetMouseInside | Sources/WindowButtonsView.swift:230-236 | the mouse flag is recorded and every button's symbol visibility follows it |
| ButtonsView.Step | Sources/WindowButtonsView.swift:178-264 | every callback keeps the slot invariant, the symbol/mouse agreement and the shared inactive background |
| ButtonsView.HoverEvents | Sources/WindowButtonsView.swift:199-251 | after mouse-enter all symbols are revealed; after mouse-exit or any updateButton notification all are hidden; kinds, icons, enabled flags untouched |
| ButtonsView.RefreshEvents | Sources/WindowButtonsView.swift:178-264 | moving to a window or toggling full screen applies the enabled rules to close and miniaturize, changes nothing else about them, and rebuilds the zoom button; its enabled flag and the mouse and option flags stay |
| ButtonsView.FlagsEvent | Sources/WindowButtonsView.swift:255-259 | a modifier change records the option key and rebuilds only the zoom button |
| ButtonsView.OptionKeySwitchesToZoom | Sources/WindowButtonsView.swift:129-135 | holding option over a full-screen-capable window not in full screen gives a zoom button with the zoom icon; releasing gives full screen back |
| ButtonsView.Run | Sources/WindowButtonsView.swift:178-264 | any sequence of callbacks keeps the slot invariant, and with it the view invariant |
| ButtonsView.StepKeepsZoomEnabled | Sources/WindowButtonsView.swift:209-213 | no callback changes the zoom button's enabled flag |
| ButtonsView.RunKeepsZoomEnabled | Sources/WindowButtonsView.swift:209-213 | over any sequence of callbacks the zoom button keeps its enabled flag, and the view's icons, inactive background and forceAction stay unchanged |
| ButtonsView.ButtonForAfterRun | Sources/WindowButtonsView.swift:31-33 | after any events from a new view, button(for:) returns the button of the matching kind |
| ButtonsView.HoverRoundTrip | Sources/WindowButtonsView.swift:246-251 | from a valid view with the mouse outside, enter then exit gives back the same view |
| ButtonsView.ExitForgetsEnter | Sources/WindowButtonsView.swift:230-251 | enter then exit equals exit alone |
| ButtonsView.Click | Sources/WindowButtonsView.swift:217-226 | a veto leaves only the will-hook; otherwise a present window gets exactly one action, perform = !forceAction, and the delegate hears will then did; the calls come will-hook, then action, then did-hook |
| ButtonsView.AroundAction | Sources/WindowButtonsView.swift:217-226 | an agreed click frames the window call with the will-hook before and the did-hook after, and adds no window call |
| ButtonsView.DidIffWillAgreed | Sources/WindowButtonsView.swift:217-226 | did-perform is heard iff a delegate answered yes; at most one window action per click |
| ViewProperties.SetIcon | Sources/WindowButtonsView.swift:40-55 | closeImage / miniaturizeImage set that button's icon only |
| ViewProperties.SetZoomIcon | Sources/WindowButtonsView.swift:56-70 | stores one zoom-button icon, keeps the other two and every other view field; close and miniaturize unchanged; the zoom button is rebuilt from the new icons and keeps its enabled flag, so a button the table says wears that icon shows the new one |
| ViewProperties.SameIconIsNoChange | Sources/WindowButtonsView.swift:56-70 | setting an icon to its current value leaves an up-to-date view unchanged |
| ViewProperties.SetZoomIconIdempotent | Sources/WindowButtonsView.swift:56-70 | setting the same icon twice equals setting it once |
| ViewProperties.SetUnactiveBackground | Sources/WindowButtonsView.swift:97-103 | only the stored inactive background and each button's inactive background change, to the new image, so every disabled button draws it; the invariant is kept |
| ViewProperties.BackgroundImageFor | Sources/WindowButtonsView.swift:73-76 | the close getter returns the button's stored active background, enabled or not: it is what the button draws whenever it (or its enabled copy) is active |
| ViewProperties.BackgroundGetterAsWritten | Sources/WindowButtonsView.swift:73-96 | the close getter returns the drawn background; the miniaturize and zoom getters return the alternate image, and crash (None) while it is unset |
| ViewProperties.SetBackgroundAsWritten | Sources/WindowButtonsView.swift:73-96 | the setters as written store the alternate image of that one button and change no other button or field; no drawing changes and the close getter is unchanged, while the miniaturize and zoom getters read the new image back |
| ViewProperties.FreshBackgroundGetters | Sources/WindowButtonsView.swift:73-96 | on a new view the close getter reads "closeBackground" and the miniaturize and zoom getters crash |
| ViewProperties.GetterDisagreesWithDrawing | Sources/WindowButtonsView.swift:81-96 | after a set, the miniaturize or zoom getter returns the new image while the active background drawn is still the old one |
| ViewProperties.CloseBackgroundIsLost | Sources/WindowButtonsView.swift:73-80 | as written, a new close background neither reads back through the close getter nor appears as the active background |
| ViewProperties.CloseBackgroundCounterexample | Sources/WindowButtonsView.swift:73-80 | a new view set to "red" still reads and draws "closeBackground" in a main window |
| ViewProperties.SetBackground | Sources/WindowButtonsView.swift:73-96 | corrected setter: the getter reads the new image back, the button draws it when active, other buttons unchanged |
| ViewProperties.BackgroundRoundTrip | Sources/WindowButtonsView.swift:73-80 | with the corrected setter, set then get is the identity and setting twice equals setting once |
| LegacyButtons.NewButton | WindowButtonsView/WindowButton.swift:76-79 | a legacy button whose cell keeps its defaults hides symbols and has "unactiveBackground" as both backgrounds; kind and icon are the given ones |
| LegacyButtons.FreshButtonDrawsInactiveImage | WindowButtonsView/WindowButton.swift:77-79 | until a background is set, either background choice draws the shared inactive image |
| LegacyButtons.BackgroundSetterShows | WindowButtonsView/WindowButton.swift:45-55 | a background set through the legacy accessor is drawn whenever the legacy cell picks the active background, and that choice does not change |
| LegacyButtons.Draw | WindowButtonsView/WindowButton.swift:86-124 | active background iff (main and enabled) or symbols revealed; overlay iff highlighted; glyph iff revealed and enabled |
| LegacyButtons.BackgroundRulesCompared | WindowButtonsView/WindowButton.swift:87 | the legacy background is active iff the current one is or the button is disabled with symbols revealed; for enabled buttons they agree |
| LegacyButtons.RevealedDisabledStaysActive | WindowButtonsView/WindowButton.swift:87 | a disabled button with revealed symbols is active in the legacy version and inactive in the current one |
| LegacyButtons.HiddenInBackgroundIsInactive | WindowButtonsView/WindowButton.swift:87 | without main status or revealed symbols a legacy button is inactive, and the enabled flag does not change the drawing |
| LegacyButtons.GlyphRulesAgree | WindowButtonsView/WindowButton.swift:95-123 | handed the button's own icon, the legacy glyph and overlay decisions match the current ones |
| LegacyButtonsView.Init | WindowButtonsView/WindowButtonsView.swift:36-110 | the buttons are the initializer's close, miniaturize and zoom buttons in their slots; the property defaults hold; the view is valid iff those buttons start with symbols hidden and "unactiveBackground" inactive |
| LegacyButtonsView.InitFromCellDefaults | WindowButtonsView/WindowButton.swift:76-79 | buttons whose cells keep their defaults make a valid new legacy view, whatever their icons |
| LegacyButtonsView.UpdateButtonsState | WindowButtonsView/WindowButtonsView.swift:192-197 | close enabled iff the window can close and is not in full screen; miniaturize likewise; no window disables both |
| LegacyButtonsView.EnabledRulesCompared | WindowButtonsView/WindowButtonsView.swift:192-197 | legacy close = current close and not in full screen; the miniaturize rules coincide |
| LegacyButtonsView.FullScreenCloseDiffers | WindowButtonsView/WindowButtonsView.swift:192-197 | for a closable window in full screen, close is enabled by the current rule and disabled by the legacy one |
| LegacyButtonsView.UpdateZoomAndFullscreenButton | WindowButtonsView/WindowButtonsView.swift:262-282 | the legacy zoom kind and icon selection produce the same view as the current one |
| LegacyButtonsView.SetMouseInside | WindowButtonsView/WindowButtonsView.swift:226-231 | the legacy mouse flag observer matches the current one |
| LegacyButtonsView.Step | WindowButtonsView/WindowButtonsView.swift:162-260 | every legacy callback keeps the slot invariant, the view invariant and the stored icons and inactive background |
| LegacyButtonsView.ToggleRefreshesOnlyZoom | WindowButtonsView/WindowButtonsView.swift:257-260 | a full-screen enter or exit rebuilds only the zoom button, changes no enabled flag, and keeps the mouse and option flags and the stored properties |
| LegacyButtonsView.AttachRefreshes | WindowButtonsView/WindowButtonsView.swift:162-176 | moving to a window enables close and miniaturize iff the window allows it and is not in full screen, changes nothing else about them, rebuilds the zoom button, and keeps the mouse and option flags |
| LegacyButtonsView.StepsAgree | WindowButtonsView/WindowButtonsView.swift:182-255 | apart from moving to a window and toggling full screen, the legacy view steps exactly like the current one |
| LegacyButtonsView.HoverEvents | WindowButtonsView/WindowButtonsView.swift:182-246 | mouse-enter reveals all symbols; mouse-exit and updateButton hide them all; enabled flags untouched |
| LegacyButtonsView.Click | WindowButtonsView/WindowButtonsView.swift:201-222 | the legacy click is the current click with forceAction off: only perform variants or the full-screen toggle, and did-perform after a yes even without a window |
| LegacyButtonsView.VetoStopsEverything | WindowButtonsView/WindowButtonsView.swift:202-221 | a vetoed legacy click makes no call beyond the will-hook and no window action |

## Left out

- Auto Layout constraints (`initializeConstrains`, `isVertical`, the legacy initializer's constraints) are left out. They are toolkit layout with no decision logic.
- Notification registration and removal, tracking-area management, and installing and removing the flag monitors in `deinit` are left out. They are I/O and lifetime plumbing. Only the value each callback delivers is modelled, as an `Event`.
- `setNeedsDisplay` redraw requests are left out. Drawing is modelled as a pure function of the button's state.
- Pixel work is left out: centring, `integral` rects, the alpha mask, the 0.2 black fill and the backing scale. This is floating-point graphics through foreign calls; only the "overlay drawn" boolean is kept.
- Bundle image loading is left out. Images are opaque names, and a missing resource (a crashing force-unwrap) is not modelled.
- Interface Builder paths are left out: `TARGET_INTERFACE_BUILDER` branches, `prepareForInterfaceBuilder` and `awakeFromNib`. They exist only at design time.
- `rect(for:)` / `rectForButtonType` and the bitmask internals of the NSWindow extension are left out. They are frame queries and toolkit bit tests, so the model takes the four capability flags directly.
- The `closeImage` / `miniaturizeImage` getters are not modelled. They force-unwrap an optional icon; only the setters are modelled.
- The legacy view's inspectable image properties (WindowButtonsView/WindowButtonsView.swift:45-110) are not modelled separately. Their code is the same as the current version's, which `ViewProperties` models.
- The legacy `WindowButtonType` enum and the legacy `WindowButton(type:)` initializer are not part of this model.
- LegacyButtonsView.Init: takes the legacy `WindowButton(type:)` initializer as a parameter and assumes only that it builds a button of the kind it is given. What icon or background it sets is not known, so the contract does not fix them.
- LegacyButtons.NewButton: takes the kind and icon as given, because the legacy initializer that sets them is not part of this model.
- AppKit never sends the action of a disabled button, and it decides on its own when to call `drawImage`. Both are toolkit behaviour: `Click` accepts any slot, and `Draw` describes one call.
- Buttons.Draw: the overlay is stated as drawn iff the button is highlighted. The source also skips the overlay when the background cannot be converted to a CGImage; that conversion is a foreign call and is assumed to succeed.
- ButtonTypes.Index: its own contract only bounds the slot. The distinctness and flag-independence of slots are stated by `ButtonTypes.IndexIdentifiesButton`.

## Findings

| source | as written | input that shows it | evidently intended | confidence | as-written member | corrected member |
|---|---|---|---|---|---|---|
| Sources/WindowButtonsView.swift:73-96 | The `closeBackgroundImage`, `miniaturizeBackgroundImage` and `zoomAndFullscreenBackgroundImage` setters store NSButton's `alternateImage`, which `WindowButtonCell.drawImage` never reads. The close getter reads `backgroundImage`, so it does not return what was set. The miniaturize and zoom getters force-unwrap `alternateImage`: they crash until a set, and afterwards return an image that is never drawn. WindowButtonsView/WindowButtonsView.swift:78-101 repeats the same code. | Set `closeBackgroundImage` to "red" on a new view in a main window: the getter returns "closeBackground" and the enabled close button still draws "closeBackground". Read `miniaturizeBackgroundImage` on a new view: the force-unwrap of a nil alternate image crashes. | The setters store the button's `backgroundImage` and all three getters read it, so the new image reads back and is drawn as the active background. | high; not executed | ViewProperties.SetBackgroundAsWritten, ViewProperties.BackgroundGetterAsWritten, ViewProperties.CloseBackgroundCounterexample, ViewProperties.FreshBackgroundGetters | ViewProperties.SetBackground |

=== FILE: button_types.dfy ===
/**
 * The button-kind algebra of Sources/WindowButton.swift (`WindowButtonType`): the closed
 * set of kinds, the slot each kind occupies in the view's three-button row, the default
 * images of each kind and the window action a click on each kind triggers.
 */
module ButtonTypes {

  /** Images are opaque; a bundled image is identified by its resource name. */
  type Image = string

  /** `WindowButtonType`: the zoom button records whether it currently offers full screen. */
  datatype ButtonType = CloseButton | MiniaturizeButton | ZoomAndFullscreenButton(fullscreen: bool)

  /** The kinds the view creates its buttons with, in the order of its `buttons` array. */
  const Slots: seq<ButtonType> := [CloseButton, MiniaturizeButton, ZoomAndFullscreenButton(false)]

  /** Two kinds name the same button when they differ at most in the zoom button's flag. */
  predicate SameButton(a: ButtonType, b: ButtonType) {
    match a
    case CloseButton => b.CloseButton?
    case MiniaturizeButton => b.MiniaturizeButton?
    case ZoomAndFullscreenButton(_) => b.ZoomAndFullscreenButton?
  }

  /** `index()`: the slot of the kind's button in the view's row. */
  function Index(t: ButtonType): (i: nat)
    ensures i < |Slots|
  {
    match t
    case CloseButton => 0
    case MiniaturizeButton => 1
    case ZoomAndFullscreenButton(_) => 2
  }

  /** Distinct buttons get distinct slots; the zoom slot ignores the full-screen flag. */
  lemma IndexIdentifiesButton(a: ButtonType, b: ButtonType)
    ensures Index(a) == Index(b) <==> SameButton(a, b)
  {}

  /** The view's array literal puts every kind in its own slot. */
  lemma SlotsAreIndexed()
    ensures forall i :: 0 <= i < |Slots| ==> Index(Slots[i]) == i
    ensures forall t :: SameButton(Slots[Index(t)], t)
  {}

  /** `defaultBackgroundImage()`: each button has an active background resource of its own. */
  function DefaultBackgroundImage(t: ButtonType): (img: Image)
    ensures img == "closeBackground" <==> t.CloseButton?
    ensures img == "miniaturizeBackground" <==> t.MiniaturizeButton?
    ensures img == "fullscreenBackground" <==> t.ZoomAndFullscreenButton?
  {
    match t
    case CloseButton => "closeBackground"
    case MiniaturizeButton => "miniaturizeBackground"
    case ZoomAndFullscreenButton(_) => "fullscreenBackground"
  }

  /** `defaultUnactiveBackgroundImage()`: one inactive background shared by every kind. */
  function DefaultUnactiveBackgroundImage(t: ButtonType): (img: Image)
    ensures img == "unactiveBackground"
    ensures img != DefaultBackgroundImage(t)
  {
    "unactiveBackground"
  }

  /** `defaultImage()`: each button has an icon resource of its own. */
  function DefaultImage(t: ButtonType): (img: Image)
    ensures img == "close" <==> t.CloseButton?
    ensures img == "miniaturize" <==> t.MiniaturizeButton?
    ensures img == "zoom" <==> t.ZoomAndFullscreenButton?
    ensures img != DefaultBackgroundImage(t) && img != DefaultUnactiveBackgroundImage(t)
  {
    match t
    case CloseButton => "close"
    case MiniaturizeButton => "miniaturize"
    case ZoomAndFullscreenButton(_) => "zoom"
  }

  /** The zoom button's defaults do not depend on its full-screen flag. */
  lemma ZoomDefaultsIgnoreFlag(f: bool)
    ensures DefaultImage(ZoomAndFullscreenButton(f)) == "zoom"
    ensures DefaultBackgroundImage(ZoomAndFullscreenButton(f)) == "fullscreenBackground"
    ensures DefaultImage(ZoomAndFullscreenButton(f)) == DefaultImage(ZoomAndFullscreenButton(!f))
    ensures DefaultBackgroundImage(ZoomAndFullscreenButton(f)) == DefaultBackgroundImage(ZoomAndFullscreenButton(!f))
  {}

  /**
   * Defaults are a function of the button alone: two kinds share an icon, or an active
   * background, exactly when they name the same button, while every kind shares the one
   * inactive background, which is no kind's active background.
   */
  lemma DefaultsFollowButton(a: ButtonType, b: ButtonType)
    ensures DefaultImage(a) == DefaultImage(b) <==> SameButton(a, b)
    ensures DefaultBackgroundImage(a) == DefaultBackgroundImage(b) <==> SameButton(a, b)
    ensures DefaultUnactiveBackgroundImage(a) == DefaultUnactiveBackgroundImage(b) == "unactiveBackground"
    ensures DefaultUnactiveBackgroundImage(a) != DefaultBackgroundImage(b)
  {}

  /** The calls `action(_:on:perform:)` can make on the window. */
  datatype WindowAction =
    | PerformClose | Close
    | PerformMiniaturize | Miniaturize
    | PerformZoom | Zoom
    | ToggleFullScreen

  /** What an action does to the window, whichever variant is used. */
  datatype Effect = Closes | Miniaturizes | Zooms | TogglesFullScreen

  function EffectOf(a: WindowAction): Effect {
    match a
    case PerformClose | Close => Closes
    case PerformMiniaturize | Miniaturize => Miniaturizes
    case PerformZoom | Zoom => Zooms
    case ToggleFullScreen => TogglesFullScreen
  }

  /**
   * The `perform…` variants simulate a click on the system button (highlight, delegate
   * consultation); the direct variants skip that. Toggling full screen has one form only.
   */
  predicate IsPerformVariant(a: WindowAction) {
    a.PerformClose? || a.PerformMiniaturize? || a.PerformZoom?
  }

  /** What each kind of button is for. */
  function Purpose(t: ButtonType): Effect {
    match t
    case CloseButton => Closes
    case MiniaturizeButton => Miniaturizes
    case ZoomAndFullscreenButton(fullscreen) => if fullscreen then TogglesFullScreen else Zooms
  }

  /**
   * `action(_:on:perform:)`: exactly one window call, which does what the button is for,
   * and which is the perform variant exactly when `perform` is asked for and one exists.
   */
  function Action(t: ButtonType, perform: bool): (a: WindowAction)
    ensures EffectOf(a) == Purpose(t)
    ensures IsPerformVariant(a) <==> perform && Purpose(t) != TogglesFullScreen
  {
    match t
    case CloseButton => if perform then PerformClose else Close
    case MiniaturizeButton => if perform then PerformMiniaturize else Miniaturize
    case ZoomAndFullscreenButton(false) => if perform then PerformZoom else Zoom
    case ZoomAndFullscreenButton(true) => ToggleFullScreen
  }

  /** The effect and the variant pin an action down, so `Action`'s contract is a full specification. */
  lemma ActionIsDetermined(t: ButtonType, perform: bool, a: WindowAction)
    requires EffectOf(a) == Purpose(t)
    requires IsPerformVariant(a) <==> perform && Purpose(t) != TogglesFullScreen
    ensures a == Action(t, perform)
  {}

  /** The full-screen kind toggles full screen whatever `perform` says. */
  lemma FullscreenIgnoresPerform(perform: bool)
    ensures Action(ZoomAndFullscreenButton(true), perform) == ToggleFullScreen
    ensures Action(ZoomAndFullscreenButton(true), perform) == Action(ZoomAndFullscreenButton(true), !perform)
  {}

  /** Each kind's perform and direct actions, as a table. */
  lemma ActionTable()
    ensures Action(CloseButton, true) == PerformClose && Action(CloseButton, false) == Close
    ensures Action(MiniaturizeButton, true) == PerformMiniaturize && Action(MiniaturizeButton, false) == Miniaturize
    ensures Action(ZoomAndFullscreenButton(false), true) == PerformZoom
    ensures Action(ZoomAndFullscreenButton(false), false) == Zoom
  {}
}

=== FILE: buttons.dfy ===
/**
 * One window button of Sources/WindowButton.swift: the `WindowButton` control together
 * with its `WindowButtonCell`, whose stored properties the button's accessors pass
 * through, and the decisions the cell's `drawImage` makes.
 */
module Buttons {
  import opened Options
  import opened ButtonTypes
  import opened Windows

  /** The observable state of one button and its cell. */
  datatype Button = Button(
    kind: ButtonType,                // the cell's `windowButtonType`
    image: Option<Image>,            // NSButton's icon, drawn as the symbol glyph
    alternateImage: Option<Image>,   // NSButton's alternate image; the cell never draws it
    backgroundImage: Image,          // the cell's active background
    unactiveBackgroundImage: Image,  // the cell's inactive background
    enabled: bool,
    displaySymbol: bool)

  /**
   * The cell's stored-property defaults, which a button decoded from a nib keeps: a close
   * kind with the close background, the shared inactive background and symbols hidden.
   */
  function CellDefaults(): (b: Button)
    ensures b.kind == CloseButton && !b.displaySymbol
    ensures b.backgroundImage == DefaultBackgroundImage(CloseButton)
    ensures b.unactiveBackgroundImage == DefaultUnactiveBackgroundImage(CloseButton)
  {
    Button(CloseButton, None, None, "closeBackground", "unactiveBackground", true, false)
  }

  /** `WindowButton(type:)`: a fresh button wears its kind's default images. */
  function NewButton(t: ButtonType): (b: Button)
    ensures b.kind == t
    ensures b.image == Some(DefaultImage(t))
    ensures b.backgroundImage == DefaultBackgroundImage(t)
    ensures b.unactiveBackgroundImage == DefaultUnactiveBackgroundImage(t)
    ensures b.enabled && !b.displaySymbol && b.alternateImage.None?
  {
    Button(t, Some(DefaultImage(t)), None, DefaultBackgroundImage(t), DefaultUnactiveBackgroundImage(t),
           true, false)
  }

  /** A new close button draws exactly what the cell defaults would, except for its icon. */
  lemma NewCloseButtonMatchesCellDefaults()
    ensures NewButton(CloseButton).(image := None) == CellDefaults()
  {}

  /** The `type` setter: the cell takes the new kind and nothing else changes. */
  function SetKind(b: Button, t: ButtonType): (r: Button)
    ensures r.kind == t && r.(kind := b.kind) == b
  {
    b.(kind := t)
  }

  /** The `displaySymbol` setter. */
  function SetDisplaySymbol(b: Button, d: bool): (r: Button)
    ensures r.displaySymbol == d && r.(displaySymbol := b.displaySymbol) == b
  {
    b.(displaySymbol := d)
  }

  /** The `backgroundImage` setter. */
  function SetBackgroundImage(b: Button, img: Image): (r: Button)
    ensures r.backgroundImage == img && r.(backgroundImage := b.backgroundImage) == b
  {
    b.(backgroundImage := img)
  }

  /** The `unactiveBackgroundImage` setter. */
  function SetUnactiveBackgroundImage(b: Button, img: Image): (r: Button)
    ensures r.unactiveBackgroundImage == img && r.(unactiveBackgroundImage := b.unactiveBackgroundImage) == b
  {
    b.(unactiveBackgroundImage := img)
  }

  /** NSButton's `image` setter. */
  function SetImage(b: Button, img: Option<Image>): (r: Button)
    ensures r.image == img && r.(image := b.image) == b
  {
    b.(image := img)
  }

  /** NSButton's `alternateImage` setter. */
  function SetAlternateImage(b: Button, img: Option<Image>): (r: Button)
    ensures r.alternateImage == img && r.(alternateImage := b.alternateImage) == b
  {
    b.(alternateImage := img)
  }

  /** NSButton's `isEnabled` setter. */
  function SetEnabled(b: Button, e: bool): (r: Button)
    ensures r.enabled == e && r.(enabled := b.enabled) == b
  {
    b.(enabled := e)
  }

  /** Which of the two backgrounds a drawing uses. */
  datatype Background = ActiveBackground | InactiveBackground

  /**
   * What one call of `drawImage` puts on screen: a background image, possibly the
   * darkening overlay masked by that background, possibly the symbol glyph on top.
   */
  datatype Frame = Frame(background: Background, backgroundImage: Image, overlay: bool, glyph: Option<Image>)

  /** The image a button draws for a choice of background. */
  function BackgroundImageOf(b: Button, bg: Background): Image {
    match bg
    case ActiveBackground => b.backgroundImage
    case InactiveBackground => b.unactiveBackgroundImage
  }

  /**
   * `drawImage(_:withFrame:in:)` outside Interface Builder. The active background is
   * used when the window is main or symbols are revealed, and the button is enabled;
   * the overlay follows the pressed state; the glyph is the button's own image, drawn
   * when symbols are revealed, the button is enabled and it has an image.
   */
  function Draw(b: Button, w: Option<Window>, highlighted: bool): (f: Frame)
    ensures f.background == ActiveBackground <==> (IsMain(w) || b.displaySymbol) && b.enabled
    ensures f.backgroundImage == BackgroundImageOf(b, f.background)
    ensures f.overlay <==> highlighted
    ensures f.glyph.Some? <==> b.displaySymbol && b.enabled && b.image.Some?
    ensures f.glyph.Some? ==> f.glyph == b.image
  {
    var bg := if (IsMain(w) || b.displaySymbol) && b.enabled then ActiveBackground else InactiveBackground;
    var glyph := if b.displaySymbol && b.enabled then b.image else None;
    Frame(bg, BackgroundImageOf(b, bg), highlighted, glyph)
  }

  /** A disabled button always shows its inactive background, whatever the window and hover state. */
  lemma DisabledIsInactive(b: Button, w: Option<Window>, highlighted: bool)
    requires !b.enabled
    ensures Draw(b, w, highlighted).background == InactiveBackground
    ensures Draw(b, w, highlighted).backgroundImage == b.unactiveBackgroundImage
    ensures Draw(b, w, highlighted).glyph.None?
  {}

  /** A glyph is only ever drawn over the active background. */
  lemma GlyphOnlyOverActive(b: Button, w: Option<Window>, highlighted: bool)
    requires Draw(b, w, highlighted).glyph.Some?
    ensures Draw(b, w, highlighted).background == ActiveBackground
  {}

  /** Revealing symbols makes an enabled button active even in a background window. */
  lemma RevealedEnabledIsActive(b: Button, w: Option<Window>, highlighted: bool)
    requires b.enabled && b.displaySymbol
    ensures Draw(b, w, highlighted).background == ActiveBackground
    ensures Draw(b, w, highlighted).glyph == b.image
  {}

  /** The pressed state changes only the overlay. */
  lemma HighlightOnlyAddsOverlay(b: Button, w: Option<Window>)
    ensures Draw(b, w, true).(overlay := false) == Draw(b, w, false)
  {}
}

=== FILE: buttons_view.dfy ===
/**
 * The controller of Sources/WindowButtonsView.swift: the view owns three buttons, keeps
 * their enabled flags, zoom kind and symbol visibility in step with the window, the
 * option key and the mouse, and turns a click into delegate calls and a window action.
 */
module ButtonsView {
  import opened Options
  import opened ButtonTypes
  import opened Windows
  import opened Buttons

  // ---------------------------------------------------------------------------
  // The button row and `button(for:)`

  /** Every button sits in the slot its kind's `index()` names. */
  predicate SlotsMatch(bs: seq<Button>) {
    |bs| == |Slots| && forall i :: 0 <= i < |bs| ==> Index(bs[i].kind) == i
  }

  /** `button(for:)`: the button of the given kind, found by slot. */
  function ButtonFor(bs: seq<Button>, t: ButtonType): (b: Button)
    requires SlotsMatch(bs)
    ensures b == bs[Index(t)]
    ensures SameButton(b.kind, t)
    ensures forall i :: 0 <= i < |bs| && SameButton(bs[i].kind, t) ==> bs[i] == b
  {
    IndexIdentifiesButton(bs[Index(t)].kind, t);
    assert forall i :: 0 <= i < |bs| && SameButton(bs[i].kind, t) ==> i == Index(t) by {
      forall i | 0 <= i < |bs| && SameButton(bs[i].kind, t)
        ensures i == Index(t)
      {
        IndexIdentifiesButton(bs[i].kind, t);
      }
    }
    bs[Index(t)]
  }

  /** Puts a button back in the slot of its kind. */
  function Replace(bs: seq<Button>, t: ButtonType, b: Button): (r: seq<Button>)
    requires SlotsMatch(bs) && SameButton(b.kind, t)
    ensures SlotsMatch(r)
    ensures r == bs[Index(t) := b]
  {
    IndexIdentifiesButton(b.kind, t);
    bs[Index(t) := b]
  }

  /** The `mouseInside` observer's loop: every button takes the same symbol visibility. */
  function ShowSymbols(bs: seq<Button>, d: bool): (r: seq<Button>)
    ensures |r| == |bs|
    ensures forall i :: 0 <= i < |r| ==>
      r[i].displaySymbol == d && r[i].(displaySymbol := bs[i].displaySymbol) == bs[i]
  {
    seq(|bs|, i requires 0 <= i < |bs| => SetDisplaySymbol(bs[i], d))
  }

  // ---------------------------------------------------------------------------
  // The view

  datatype View = View(
    buttons: seq<Button>,
    mouseInside: bool,
    alternateKeyPressed: bool,
    zoomImage: Option<Image>,
    fullscreenImage: Option<Image>,
    fullscreenOffImage: Option<Image>,
    unactiveBackgroundImage: Image,
    forceAction: bool)

  /**
   * The view's invariant: the slots match the kinds, every button reveals its symbol
   * exactly when the mouse is inside, and every button uses the view's inactive background.
   */
  predicate Valid(v: View) {
    && SlotsMatch(v.buttons)
    && (forall i :: 0 <= i < |v.buttons| ==> v.buttons[i].displaySymbol == v.mouseInside)
    && (forall i :: 0 <= i < |v.buttons| ==> v.buttons[i].unactiveBackgroundImage == v.unactiveBackgroundImage)
  }

  /** The view's stored properties other than the buttons and the two tracked flags agree. */
  predicate SameProperties(a: View, b: View) {
    && a.zoomImage == b.zoomImage
    && a.fullscreenImage == b.fullscreenImage
    && a.fullscreenOffImage == b.fullscreenOffImage
    && a.unactiveBackgroundImage == b.unactiveBackgroundImage
    && a.forceAction == b.forceAction
  }

  /** Only the buttons changed. */
  predicate OnlyButtonsChanged(a: View, b: View) {
    SameProperties(a, b) && a.mouseInside == b.mouseInside && a.alternateKeyPressed == b.alternateKeyPressed
  }

  /** A button change that keeps every button's symbol visibility and inactive background keeps the view valid. */
  lemma ValidAfterButtonChange(v: View, r: View)
    requires Valid(v) && SlotsMatch(r.buttons) && OnlyButtonsChanged(r, v)
    requires forall i :: 0 <= i < |r.buttons| ==>
      r.buttons[i].displaySymbol == v.buttons[i].displaySymbol
      && r.buttons[i].unactiveBackgroundImage == v.buttons[i].unactiveBackgroundImage
    ensures Valid(r)
  {}

  /** A freshly created view with its property defaults. */
  function Init(): (v: View)
    ensures Valid(v)
    ensures forall i :: 0 <= i < |Slots| ==> v.buttons[i] == NewButton(Slots[i])
    ensures !v.mouseInside && !v.alternateKeyPressed && !v.forceAction
    ensures v.zoomImage == Some("zoom") && v.fullscreenImage == Some("fullscreen")
    ensures v.fullscreenOffImage == Some("fullscreenOff") && v.unactiveBackgroundImage == "unactiveBackground"
  {
    View([NewButton(CloseButton), NewButton(MiniaturizeButton), NewButton(ZoomAndFullscreenButton(false))],
         false, false, Some("zoom"), Some("fullscreen"), Some("fullscreenOff"), "unactiveBackground", false)
  }

  // ---------------------------------------------------------------------------
  // Enabled flags

  /**
   * `updateButtonsState()`: close follows the window's closable bit, miniaturize its
   * miniaturizable bit but only outside full screen; no window disables both. The zoom
   * button and everything but the two enabled flags stay as they were.
   */
  function UpdateButtonsState(v: View, w: Option<Window>): (r: View)
    requires SlotsMatch(v.buttons)
    ensures SlotsMatch(r.buttons)
    ensures OnlyButtonsChanged(r, v)
    ensures r.buttons[0].enabled <==> w.Some? && w.value.canClose
    ensures r.buttons[1].enabled <==> w.Some? && w.value.canMiniaturize && !w.value.inFullScreen
    ensures r.buttons[0].(enabled := v.buttons[0].enabled) == v.buttons[0]
    ensures r.buttons[1].(enabled := v.buttons[1].enabled) == v.buttons[1]
    ensures r.buttons[2] == v.buttons[2]
    ensures Valid(v) ==> Valid(r)
  {
    var notFullscreen := NotFullScreen(w);
    var bs := Replace(v.buttons, CloseButton, SetEnabled(ButtonFor(v.buttons, CloseButton), CanClose(w)));
    var bs' := Replace(bs, MiniaturizeButton,
                       SetEnabled(ButtonFor(bs, MiniaturizeButton), CanMiniaturize(w) && notFullscreen));
    var r := v.(buttons := bs');
    assert Valid(v) ==> Valid(r) by {
      if Valid(v) {
        ValidAfterButtonChange(v, r);
      }
    }
    r
  }

  // ---------------------------------------------------------------------------
  // The zoom / full-screen button

  /** The three icons the zoom button can wear. */
  datatype IconChoice = ZoomIcon | FullscreenIcon | FullscreenOffIcon

  function IconImage(v: View, c: IconChoice): Option<Image> {
    match c
    case ZoomIcon => v.zoomImage
    case FullscreenIcon => v.fullscreenImage
    case FullscreenOffIcon => v.fullscreenOffImage
  }

  /**
   * The zoom button's kind flag and icon as a table over a window's two flags and the
   * option key: in full screen it offers to leave; otherwise it offers full screen when
   * the window allows it and option is up, and plain zoom in every other case.
   */
  function ZoomTable(canGoFullscreen: bool, inFullScreen: bool, alternateKeyPressed: bool): (bool, IconChoice) {
    if inFullScreen then (true, FullscreenOffIcon)
    else if canGoFullscreen && !alternateKeyPressed then (true, FullscreenIcon)
    else (false, ZoomIcon)
  }

  /**
   * The zoom button as `updateZoomAndFullscreenButton()` leaves it: only its kind and
   * icon change, as `ZoomTable` says; without a window it is a plain zoom button. The
   * switch's `fatalError` arm is the `assert false` below, shown unreachable.
   */
  function ZoomButton(v: View, w: Option<Window>): (z: Button)
    requires SlotsMatch(v.buttons)
    ensures z.(kind := v.buttons[2].kind, image := v.buttons[2].image) == v.buttons[2]
    ensures w.None? ==> z.kind == ZoomAndFullscreenButton(false) && z.image == v.zoomImage
    ensures w.Some? ==>
      var (fullscreen, icon) := ZoomTable(w.value.canGoFullscreen, w.value.inFullScreen, v.alternateKeyPressed);
      z.kind == ZoomAndFullscreenButton(fullscreen) && z.image == IconImage(v, icon)
  {
    var zoom := SetKind(ButtonFor(v.buttons, ZoomAndFullscreenButton(false)),
                        ZoomAndFullscreenButton((CanGoFullscreen(w) && !v.alternateKeyPressed) || InFullScreen(w)));
    var image :=
      if InFullScreen(w) then v.fullscreenOffImage
      else match zoom.kind
        case ZoomAndFullscreenButton(true) => v.fullscreenImage
        case ZoomAndFullscreenButton(false) => v.zoomImage
        case _ => assert false; v.zoomImage;
    SetImage(zoom, image)
  }

  /** `updateZoomAndFullscreenButton()`: puts the refreshed zoom button in its slot and touches nothing else. */
  function UpdateZoomAndFullscreenButton(v: View, w: Option<Window>): (r: View)
    requires SlotsMatch(v.buttons)
    ensures SlotsMatch(r.buttons)
    ensures OnlyButtonsChanged(r, v)
    ensures r.buttons[0] == v.buttons[0] && r.buttons[1] == v.buttons[1]
    ensures r.buttons[2] == ZoomButton(v, w)
    ensures Valid(v) ==> Valid(r)
  {
    var r := v.(buttons := Replace(v.buttons, ZoomAndFullscreenButton(false), ZoomButton(v, w)));
    assert Valid(v) ==> Valid(r) by {
      if Valid(v) {
        ValidAfterButtonChange(v, r);
      }
    }
    r
  }

  // ---------------------------------------------------------------------------
  // Mouse tracking

  /** The `mouseInside` property and its observer. */
  function SetMouseInside(v: View, inside: bool): (r: View)
    requires SlotsMatch(v.buttons)
    ensures SlotsMatch(r.buttons)
    ensures r.mouseInside == inside
    ensures SameProperties(r, v) && r.alternateKeyPressed == v.alternateKeyPressed
    ensures forall i :: 0 <= i < |r.buttons| ==>
      r.buttons[i].displaySymbol == inside && r.buttons[i].(displaySymbol := v.buttons[i].displaySymbol) == v.buttons[i]
    ensures Valid(v) ==> Valid(r)
  {
    v.(mouseInside := inside, buttons := ShowSymbols(v.buttons, inside))
  }

  // ---------------------------------------------------------------------------
  // Events

  /** The callbacks the view receives. */
  datatype Event =
    | MovedToWindow           // viewDidMoveToWindow()
    | WindowChanged           // updateButton(_:): became/resigned main, (de)miniaturized, will miniaturize, resized
    | ToggledFullscreen       // windowDidToggleFullscreen(_:): entered or exited full screen
    | FlagsChanged(option: bool)  // the global or local flags-changed monitor
    | MouseEntered
    | MouseExited

  /** True for the events that re-read the window. */
  predicate Refreshes(e: Event) {
    e.MovedToWindow? || e.ToggledFullscreen?
  }

  /** The state after one callback, `w` being the window the view is in at that moment. */
  function Step(v: View, w: Option<Window>, e: Event): (r: View)
    requires SlotsMatch(v.buttons)
    ensures SlotsMatch(r.buttons)
    ensures Valid(v) ==> Valid(r)
    ensures SameProperties(r, v)
  {
    match e
    case MovedToWindow => UpdateZoomAndFullscreenButton(UpdateButtonsState(v, w), w)
    case WindowChanged => SetMouseInside(v, false)
    case ToggledFullscreen => UpdateZoomAndFullscreenButton(UpdateButtonsState(v, w), w)
    case FlagsChanged(option) => UpdateZoomAndFullscreenButton(v.(alternateKeyPressed := option), w)
    case MouseEntered => SetMouseInside(v, true)
    case MouseExited => SetMouseInside(v, false)
  }

  /**
   * Mouse entry reveals every symbol; mouse exit and every window notification routed to
   * `updateButton(_:)` hide them all. None of these touches kinds, icons or enabled flags.
   */
  lemma HoverEvents(v: View, w: Option<Window>, e: Event)
    requires SlotsMatch(v.buttons)
    requires e.MouseEntered? || e.MouseExited? || e.WindowChanged?
    ensures var r := Step(v, w, e);
      && r.mouseInside == e.MouseEntered?
      && r.alternateKeyPressed == v.alternateKeyPressed
      && forall i :: 0 <= i < |r.buttons| ==>
           && r.buttons[i].displaySymbol == e.MouseEntered?
           && r.buttons[i].kind == v.buttons[i].kind
           && r.buttons[i].image == v.buttons[i].image
           && r.buttons[i].enabled == v.buttons[i].enabled
  {}

  /**
   * Moving to a window, or the window entering or leaving full screen, re-reads the window:
   * close is enabled iff the window can close, miniaturize iff it can miniaturize and is not
   * in full screen, and the zoom button is rebuilt from the table. Every other field of
   * the close and miniaturize buttons, and the zoom button's enabled flag, stay.
   */
  lemma RefreshEvents(v: View, w: Option<Window>, e: Event)
    requires SlotsMatch(v.buttons)
    requires Refreshes(e)
    ensures var r := Step(v, w, e);
      && r.mouseInside == v.mouseInside
      && r.alternateKeyPressed == v.alternateKeyPressed
      && (r.buttons[0].enabled <==> CanClose(w))
      && (r.buttons[1].enabled <==> CanMiniaturize(w) && !InFullScreen(w))
      && r.buttons[0].(enabled := v.buttons[0].enabled) == v.buttons[0]
      && r.buttons[1].(enabled := v.buttons[1].enabled) == v.buttons[1]
      && r.buttons[2] == ZoomButton(v, w)
      && r.buttons[2].enabled == v.buttons[2].enabled
  {
    var u := UpdateButtonsState(v, w);
    assert Step(v, w, e) == UpdateZoomAndFullscreenButton(u, w);
    assert ZoomButton(u, w) == ZoomButton(v, w);
  }

  /** A change of modifier flags records the option key and rebuilds only the zoom button. */
  lemma FlagsEvent(v: View, w: Option<Window>, option: bool)
    requires SlotsMatch(v.buttons)
    ensures var r := Step(v, w, FlagsChanged(option));
      && r.alternateKeyPressed == option
      && r.mouseInside == v.mouseInside
      && r.buttons[0] == v.buttons[0] && r.buttons[1] == v.buttons[1]
      && r.buttons[2] == ZoomButton(v.(alternateKeyPressed := option), w)
  {}

  /**
   * Holding option over a window that could go full screen, and is not in it, turns the
   * button into a plain zoom button; releasing option turns it back.
   */
  lemma OptionKeySwitchesToZoom(v: View, w: Option<Window>)
    requires SlotsMatch(v.buttons)
    requires CanGoFullscreen(w) && !InFullScreen(w)
    ensures Step(v, w, FlagsChanged(true)).buttons[2].kind == ZoomAndFullscreenButton(false)
    ensures Step(v, w, FlagsChanged(true)).buttons[2].image == v.zoomImage
    ensures Step(v, w, FlagsChanged(false)).buttons[2].kind == ZoomAndFullscreenButton(true)
    ensures Step(v, w, FlagsChanged(false)).buttons[2].image == v.fullscreenImage
  {}

  /** The view after a whole sequence of callbacks, each paired with the window at that moment. */
  function Run(v: View, events: seq<(Option<Window>, Event)>): (r: View)
    requires SlotsMatch(v.buttons)
    ensures SlotsMatch(r.buttons)
    ensures Valid(v) ==> Valid(r)
    decreases |events|
  {
    if events == [] then v else Run(Step(v, events[0].0, events[0].1), events[1..])
  }

  /** No callback changes the zoom button's enabled flag. */
  lemma StepKeepsZoomEnabled(v: View, w: Option<Window>, e: Event)
    requires SlotsMatch(v.buttons)
    ensures Step(v, w, e).buttons[2].enabled == v.buttons[2].enabled
  {
    if e.MouseEntered? || e.MouseExited? || e.WindowChanged? {
      HoverEvents(v, w, e);
    } else if Refreshes(e) {
      RefreshEvents(v, w, e);
    } else {
      FlagsEvent(v, w, e.option);
    }
  }

  /**
   * Over any sequence of callbacks the zoom button keeps its enabled flag, and the view's
   * stored properties stay as they were: only the flags each event feeds in change.
   */
  lemma {:induction false} RunKeepsZoomEnabled(v: View, events: seq<(Option<Window>, Event)>)
    requires SlotsMatch(v.buttons)
    ensures Run(v, events).buttons[2].enabled == v.buttons[2].enabled
    ensures SameProperties(Run(v, events), v)
    decreases |events|
  {
    if events != [] {
      var next := Step(v, events[0].0, events[0].1);
      StepKeepsZoomEnabled(v, events[0].0, events[0].1);
      RunKeepsZoomEnabled(next, events[1..]);
    }
  }

  /**
   * The slot invariant behind `buttons[type.index()]` holds before and after every event,
   * so `button(for:)` always returns the one button of the asked-for kind.
   */
  lemma ButtonForAfterRun(events: seq<(Option<Window>, Event)>, t: ButtonType)
    ensures Valid(Run(Init(), events))
    ensures SameButton(ButtonFor(Run(Init(), events).buttons, t).kind, t)
  {}

  /** Leaving the cluster undoes entering it: symbol visibility returns to where it was. */
  lemma HoverRoundTrip(v: View, w: Option<Window>, w': Option<Window>)
    requires Valid(v) && !v.mouseInside
    ensures Step(Step(v, w, MouseEntered), w', MouseExited) == v
  {}

  /** Whatever the mouse did before, an exit leaves the same view as an exit alone. */
  lemma ExitForgetsEnter(v: View, w: Option<Window>, w': Option<Window>)
    requires SlotsMatch(v.buttons)
    ensures Step(Step(v, w, MouseEntered), w', MouseExited) == Step(v, w', MouseExited)
  {}

  // ---------------------------------------------------------------------------
  // Clicks

  /** The calls a click makes, in the order it makes them. */
  datatype Call =
    | WillPerform(button: ButtonType)  // the delegate's will-perform hook
    | Perform(action: WindowAction)    // a call on the window
    | DidPerform(button: ButtonType)   // the delegate's did-perform hook

  /** Will-hooks come first, then window calls, then did-hooks. */
  function Rank(c: Call): nat {
    match c
    case WillPerform(_) => 0
    case Perform(_) => 1
    case DidPerform(_) => 2
  }

  predicate Ordered(t: seq<Call>) {
    forall i, j :: 0 <= i < j < |t| ==> Rank(t[i]) <= Rank(t[j])
  }

  /** The window calls of a trace, in order. */
  function WindowActions(t: seq<Call>): (r: seq<WindowAction>)
    ensures |r| <= |t|
    ensures forall a :: a in r <==> Perform(a) in t
  {
    if t == [] then [] else (if t[0].Perform? then [t[0].action] else []) + WindowActions(t[1..])
  }

  /** The delegate calls of a trace, in order. */
  function DelegateCalls(t: seq<Call>): (r: seq<Call>)
    ensures |r| <= |t|
    ensures forall c :: c in r <==> c in t && !c.Perform?
  {
    if t == [] then [] else (if t[0].Perform? then [] else [t[0]]) + DelegateCalls(t[1..])
  }

  lemma {:induction false} WindowActionsAppend(a: seq<Call>, b: seq<Call>)
    ensures WindowActions(a + b) == WindowActions(a) + WindowActions(b)
    decreases |a|
  {
    if a == [] {
      assert a + b == b;
    } else {
      assert (a + b)[1..] == a[1..] + b;
      WindowActionsAppend(a[1..], b);
    }
  }

  lemma {:induction false} DelegateCallsAppend(a: seq<Call>, b: seq<Call>)
    ensures DelegateCalls(a + b) == DelegateCalls(a) + DelegateCalls(b)
    decreases |a|
  {
    if a == [] {
      assert a + b == b;
    } else {
      assert (a + b)[1..] == a[1..] + b;
      DelegateCallsAppend(a[1..], b);
    }
  }

  /**
   * The will-hook, the window call if there is one, and the did-hook, in that order: the
   * delegate hears both hooks and the window calls are those of `act`.
   */
  function AroundAction(k: ButtonType, act: seq<Call>): (t: seq<Call>)
    requires |act| <= 1 && forall i :: 0 <= i < |act| ==> act[i].Perform?
    ensures WindowActions(t) == WindowActions(act)
    ensures DelegateCalls(t) == [WillPerform(k), DidPerform(k)]
    ensures Ordered(t)
  {
    assert DelegateCalls(act) == [] && WindowActions([WillPerform(k)]) == [];
    WindowActionsAppend([WillPerform(k)], act);
    WindowActionsAppend([WillPerform(k)] + act, [DidPerform(k)]);
    DelegateCallsAppend([WillPerform(k)], act);
    DelegateCallsAppend([WillPerform(k)] + act, [DidPerform(k)]);
    [WillPerform(k)] + act + [DidPerform(k)]
  }

  /**
   * `performButtonAction(_:)` for the button in `slot`. `delegate` is `None` when the view
   * has no delegate, else the answer its will-hook gives. A veto stops everything after the
   * will-hook; otherwise the window, if any, gets exactly one action, in its perform variant
   * unless `forceAction` is set, and the delegate, if any, hears did-perform exactly once.
   * The calls come in order: will-hook, window action, did-hook.
   */
  function Click(v: View, w: Option<Window>, slot: nat, delegate: Option<bool>): (t: seq<Call>)
    requires slot < |v.buttons|
    ensures delegate == Some(false) ==> t == [WillPerform(v.buttons[slot].kind)]
    ensures WindowActions(t) ==
      if delegate != Some(false) && w.Some? then [Action(v.buttons[slot].kind, !v.forceAction)] else []
    ensures DelegateCalls(t) ==
      match delegate
      case None => []
      case Some(answer) =>
        if answer then [WillPerform(v.buttons[slot].kind), DidPerform(v.buttons[slot].kind)]
        else [WillPerform(v.buttons[slot].kind)]
    ensures Ordered(t)
  {
    var k := v.buttons[slot].kind;
    var act := if w.Some? then [Perform(Action(k, !v.forceAction))] else [];
    match delegate
    case None => act
    case Some(answer) => if answer then AroundAction(k, act) else [WillPerform(k)]
  }

  /** The delegate hears did-perform exactly when its will-hook said yes. */
  lemma DidIffWillAgreed(v: View, w: Option<Window>, slot: nat, delegate: Option<bool>)
    requires slot < |v.buttons|
    ensures DidPerform(v.buttons[slot].kind) in Click(v, w, slot, delegate) <==> delegate == Some(true)
    ensures |WindowActions(Click(v, w, slot, delegate))| <= 1
  {}
}

=== FILE: legacy_buttons.dfy ===
/**
 * The legacy button of WindowButtonsView/WindowButton.swift. Its cell stores the symbol
 * flag and the two backgrounds; its accessors pass them through exactly as the current
 * button's do, so the `Buttons.Button` record and setters serve both. What differs is the
 * cell's defaults and the rules its `drawImage` follows.
 */
module LegacyButtons {
  import opened Options
  import opened ButtonTypes
  import opened Windows
  import Buttons

  /**
   * A legacy button whose cell still has its defaults: symbols hidden and the inactive
   * image as both backgrounds. The legacy `WindowButton(type:)` initializer is not part of
   * this model, so the kind and the icon it sets are taken as given.
   */
  function NewButton(t: ButtonType, icon: Option<Image>): (b: Buttons.Button)
    ensures b.kind == t && b.image == icon && !b.displaySymbol
    ensures b.backgroundImage == "unactiveBackground" && b.unactiveBackgroundImage == "unactiveBackground"
    ensures b.enabled && b.alternateImage.None?
  {
    Buttons.Button(t, icon, None, "unactiveBackground", "unactiveBackground", true, false)
  }

  /** Until its backgrounds are set, a fresh legacy button draws the inactive image whichever background it picks. */
  lemma FreshButtonDrawsInactiveImage(t: ButtonType, icon: Option<Image>, bg: Buttons.Background)
    ensures Buttons.BackgroundImageOf(NewButton(t, icon), bg) == DefaultUnactiveBackgroundImage(t)
  {}

  /**
   * The legacy `drawImage(_:withFrame:inView:)`, `image` being the icon the toolkit hands
   * it. The active background is used when the window is main and the button enabled, or
   * whenever symbols are revealed; the overlay follows the pressed state; the glyph is
   * drawn when symbols are revealed and the button is enabled.
   */
  function Draw(b: Buttons.Button, w: Option<Window>, highlighted: bool, image: Image): (f: Buttons.Frame)
    ensures f.background == Buttons.ActiveBackground <==> (IsMain(w) && b.enabled) || b.displaySymbol
    ensures f.backgroundImage == Buttons.BackgroundImageOf(b, f.background)
    ensures f.overlay <==> highlighted
    ensures f.glyph.Some? <==> b.displaySymbol && b.enabled
    ensures f.glyph.Some? ==> f.glyph == Some(image)
  {
    var bg := if (IsMain(w) && b.enabled) || b.displaySymbol then Buttons.ActiveBackground else Buttons.InactiveBackground;
    var glyph := if b.displaySymbol && b.enabled then Some(image) else None;
    Buttons.Frame(bg, Buttons.BackgroundImageOf(b, bg), highlighted, glyph)
  }

  /** The two background rules differ exactly on disabled buttons whose symbols are revealed. */
  lemma BackgroundRulesCompared(b: Buttons.Button, w: Option<Window>, highlighted: bool, image: Image)
    ensures Draw(b, w, highlighted, image).background == Buttons.ActiveBackground
      <==> Buttons.Draw(b, w, highlighted).background == Buttons.ActiveBackground || (b.displaySymbol && !b.enabled)
    ensures b.enabled ==> Draw(b, w, highlighted, image).background == Buttons.Draw(b, w, highlighted).background
  {}

  /** Unlike the current rule, a disabled legacy button with revealed symbols shows the active background. */
  lemma RevealedDisabledStaysActive(b: Buttons.Button, w: Option<Window>, highlighted: bool, image: Image)
    requires b.displaySymbol && !b.enabled
    ensures Draw(b, w, highlighted, image).background == Buttons.ActiveBackground
    ensures Buttons.Draw(b, w, highlighted).background == Buttons.InactiveBackground
  {}

  /** Without main status and without revealed symbols the legacy button is inactive, enabled or not. */
  lemma HiddenInBackgroundIsInactive(b: Buttons.Button, w: Option<Window>, highlighted: bool, image: Image)
    requires !IsMain(w) && !b.displaySymbol
    ensures Draw(b, w, highlighted, image).background == Buttons.InactiveBackground
    ensures Draw(b, w, highlighted, image) == Draw(b.(enabled := !b.enabled), w, highlighted, image)
  {}

  /** The glyph rules agree when the legacy cell is handed the button's own icon. */
  lemma GlyphRulesAgree(b: Buttons.Button, w: Option<Window>, highlighted: bool)
    requires b.image.Some?
    ensures Draw(b, w, highlighted, b.image.value).glyph == Buttons.Draw(b, w, highlighted).glyph
    ensures Draw(b, w, highlighted, b.image.value).overlay == Buttons.Draw(b, w, highlighted).overlay
  {}

  /**
   * The legacy `backgroundImage` accessor feeds the cell directly: once set, the image is
   * what the legacy cell draws whenever it picks the active background, and which
   * background it picks does not change.
   */
  lemma BackgroundSetterShows(b: Buttons.Button, w: Option<Window>, highlighted: bool, image: Image, img: Image)
    ensures var f := Draw(Buttons.SetBackgroundImage(b, img), w, highlighted, image);
      && f.background == Draw(b, w, highlighted, image).background
      && (f.background == Buttons.ActiveBackground ==> f.backgroundImage == img)
  {}
}

=== FILE: legacy_buttons_view.dfy ===
/**
 * The legacy controller of WindowButtonsView/WindowButtonsView.swift. It keeps the same
 * state as the current view except `forceAction`, and differs from it in three places:
 * close is also disabled in full screen, a full-screen toggle refreshes only the zoom
 * button, and a click always uses the perform variants.
 */
module LegacyButtonsView {
  import opened Options
  import opened ButtonTypes
  import opened Windows
  import opened Buttons
  import LegacyButtons
  import Current = ButtonsView

  datatype LegacyView = LegacyView(
    buttons: seq<Button>,
    mouseInside: bool,
    alternateKeyPressed: bool,
    zoomImage: Option<Image>,
    fullscreenImage: Option<Image>,
    fullscreenOffImage: Option<Image>,
    unactiveBackgroundImage: Image)

  /** The current view holding the same state, with the given `forceAction`. */
  function Lift(lv: LegacyView, forceAction: bool): (v: Current.View)
    ensures v.buttons == lv.buttons && v.forceAction == forceAction
  {
    Current.View(lv.buttons, lv.mouseInside, lv.alternateKeyPressed, lv.zoomImage, lv.fullscreenImage,
                 lv.fullscreenOffImage, lv.unactiveBackgroundImage, forceAction)
  }

  /** The same invariant as the current view's: slots match kinds, symbols follow the mouse. */
  predicate Valid(lv: LegacyView) {
    Current.Valid(Lift(lv, false))
  }

  /**
   * A freshly created legacy view. `make` stands for the legacy `WindowButton(type:)`
   * initializer, which is not part of this model; all the view relies on is that it
   * builds a button of the kind it is given. The view is valid exactly when those buttons
   * start with symbols hidden and the view's default inactive background.
   */
  function Init(make: ButtonType -> Button): (lv: LegacyView)
    requires forall t :: make(t).kind == t
    ensures Current.SlotsMatch(lv.buttons)
    ensures forall i :: 0 <= i < |Slots| ==> lv.buttons[i] == make(Slots[i])
    ensures !lv.mouseInside && !lv.alternateKeyPressed
    ensures lv.zoomImage == Some("zoom") && lv.fullscreenImage == Some("fullscreen")
    ensures lv.fullscreenOffImage == Some("fullscreenOff") && lv.unactiveBackgroundImage == "unactiveBackground"
    ensures Valid(lv) <==> forall i :: 0 <= i < |Slots| ==>
      !make(Slots[i]).displaySymbol && make(Slots[i]).unactiveBackgroundImage == "unactiveBackground"
  {
    LegacyView([make(CloseButton), make(MiniaturizeButton), make(ZoomAndFullscreenButton(false))],
               false, false, Some("zoom"), Some("fullscreen"), Some("fullscreenOff"), "unactiveBackground")
  }

  /** Buttons whose cells keep their defaults make a valid legacy view, whatever icons they carry. */
  lemma InitFromCellDefaults(icon: ButtonType -> Option<Image>)
    ensures var make := t => LegacyButtons.NewButton(t, icon(t));
      (forall t :: make(t).kind == t) && Valid(Init(make))
  {
    var make := t => LegacyButtons.NewButton(t, icon(t));
    forall t ensures make(t).kind == t {
      assert make(t) == LegacyButtons.NewButton(t, icon(t));
    }
  }

  /**
   * The legacy `updateButtonsState()`: close and miniaturize are each enabled only when the
   * window allows it and is not in full screen; no window disables both.
   */
  function UpdateButtonsState(lv: LegacyView, w: Option<Window>): (r: LegacyView)
    requires Current.SlotsMatch(lv.buttons)
    ensures Current.SlotsMatch(r.buttons)
    ensures Current.OnlyButtonsChanged(Lift(r, false), Lift(lv, false))
    ensures r.buttons[0].enabled <==> w.Some? && w.value.canClose && !w.value.inFullScreen
    ensures r.buttons[1].enabled <==> w.Some? && w.value.canMiniaturize && !w.value.inFullScreen
    ensures r.buttons[0].(enabled := lv.buttons[0].enabled) == lv.buttons[0]
    ensures r.buttons[1].(enabled := lv.buttons[1].enabled) == lv.buttons[1]
    ensures r.buttons[2] == lv.buttons[2]
    ensures Valid(lv) ==> Valid(r)
  {
    var notFullscreen := NotFullScreen(w);
    var bs := Current.Replace(lv.buttons, CloseButton,
                              SetEnabled(Current.ButtonFor(lv.buttons, CloseButton), CanClose(w) && notFullscreen));
    var bs' := Current.Replace(bs, MiniaturizeButton,
                               SetEnabled(Current.ButtonFor(bs, MiniaturizeButton), CanMiniaturize(w) && notFullscreen));
    assert bs'[0] == SetEnabled(lv.buttons[0], CanClose(w) && notFullscreen);
    assert bs'[1] == SetEnabled(lv.buttons[1], CanMiniaturize(w) && notFullscreen);
    assert bs'[2] == lv.buttons[2];
    var r := lv.(buttons := bs');
    assert Valid(lv) ==> Valid(r) by {
      if Valid(lv) {
        Current.ValidAfterButtonChange(Lift(lv, false), Lift(r, false));
      }
    }
    r
  }

  /** The legacy close rule is the current one with full screen also disabling close; miniaturize is unchanged. */
  lemma EnabledRulesCompared(lv: LegacyView, w: Option<Window>, forceAction: bool)
    requires Current.SlotsMatch(lv.buttons)
    ensures UpdateButtonsState(lv, w).buttons[0].enabled
      <==> Current.UpdateButtonsState(Lift(lv, forceAction), w).buttons[0].enabled && !InFullScreen(w)
    ensures UpdateButtonsState(lv, w).buttons[1].enabled
      == Current.UpdateButtonsState(Lift(lv, forceAction), w).buttons[1].enabled
  {}

  /** A closable window in full screen: the current close button is enabled, the legacy one is not. */
  lemma FullScreenCloseDiffers(lv: LegacyView)
    requires Current.SlotsMatch(lv.buttons)
    ensures var w := Some(Window(true, true, true, true, true));
      && Current.UpdateButtonsState(Lift(lv, false), w).buttons[0].enabled
      && !UpdateButtonsState(lv, w).buttons[0].enabled
  {}

  /**
   * The legacy `updateZoomAndFullscreenButton()`, written as the legacy source has it. Its
   * `fatalError` arm is the `assert false` below, shown unreachable.
   */
  function UpdateZoomAndFullscreenButton(lv: LegacyView, w: Option<Window>): (r: LegacyView)
    requires Current.SlotsMatch(lv.buttons)
    ensures Current.SlotsMatch(r.buttons)
    ensures forall f :: Lift(r, f) == Current.UpdateZoomAndFullscreenButton(Lift(lv, f), w)
  {
    var zoom := SetKind(Current.ButtonFor(lv.buttons, ZoomAndFullscreenButton(false)),
                        ZoomAndFullscreenButton((CanGoFullscreen(w) && !lv.alternateKeyPressed) || InFullScreen(w)));
    var image :=
      if InFullScreen(w) then lv.fullscreenOffImage
      else match zoom.kind
        case ZoomAndFullscreenButton(true) => lv.fullscreenImage
        case ZoomAndFullscreenButton(false) => lv.zoomImage
        case _ => assert false; lv.zoomImage;
    lv.(buttons := Current.Replace(lv.buttons, ZoomAndFullscreenButton(false), SetImage(zoom, image)))
  }

  /** The `mouseInside` property and its observer. */
  function SetMouseInside(lv: LegacyView, inside: bool): (r: LegacyView)
    requires Current.SlotsMatch(lv.buttons)
    ensures forall f :: Lift(r, f) == Current.SetMouseInside(Lift(lv, f), inside)
  {
    lv.(mouseInside := inside, buttons := Current.ShowSymbols(lv.buttons, inside))
  }

  /** The state after one callback of the legacy view. */
  function Step(lv: LegacyView, w: Option<Window>, e: Current.Event): (r: LegacyView)
    requires Current.SlotsMatch(lv.buttons)
    ensures Current.SlotsMatch(r.buttons)
    ensures Valid(lv) ==> Valid(r)
    ensures Current.SameProperties(Lift(r, false), Lift(lv, false))
  {
    match e
    case MovedToWindow => UpdateZoomAndFullscreenButton(UpdateButtonsState(lv, w), w)
    case WindowChanged => SetMouseInside(lv, false)
    case ToggledFullscreen => UpdateZoomAndFullscreenButton(lv, w)
    case FlagsChanged(option) => UpdateZoomAndFullscreenButton(lv.(alternateKeyPressed := option), w)
    case MouseEntered => SetMouseInside(lv, true)
    case MouseExited => SetMouseInside(lv, false)
  }

  /**
   * A full-screen enter or exit refreshes only the zoom button: every enabled flag, and the
   * other two buttons, stay as they were.
   */
  lemma ToggleRefreshesOnlyZoom(lv: LegacyView, w: Option<Window>)
    requires Current.SlotsMatch(lv.buttons)
    ensures var r := Step(lv, w, Current.ToggledFullscreen);
      && r.buttons[0] == lv.buttons[0] && r.buttons[1] == lv.buttons[1]
      && (forall i :: 0 <= i < |r.buttons| ==> r.buttons[i].enabled == lv.buttons[i].enabled)
      && r.buttons[2] == Current.ZoomButton(Lift(lv, false), w)
      && r.mouseInside == lv.mouseInside && r.alternateKeyPressed == lv.alternateKeyPressed
      && Current.SameProperties(Lift(r, false), Lift(lv, false))
  {}

  /**
   * Moving to a window is the only legacy callback that re-reads the enabled flags: close
   * and miniaturize are each enabled iff the window allows it and is not in full screen,
   * nothing else about them changes, and the zoom button is rebuilt from the table.
   */
  lemma AttachRefreshes(lv: LegacyView, w: Option<Window>)
    requires Current.SlotsMatch(lv.buttons)
    ensures var r := Step(lv, w, Current.MovedToWindow);
      && (r.buttons[0].enabled <==> CanClose(w) && NotFullScreen(w))
      && (r.buttons[1].enabled <==> CanMiniaturize(w) && NotFullScreen(w))
      && r.buttons[0].(enabled := lv.buttons[0].enabled) == lv.buttons[0]
      && r.buttons[1].(enabled := lv.buttons[1].enabled) == lv.buttons[1]
      && r.buttons[2] == Current.ZoomButton(Lift(lv, false), w)
      && r.mouseInside == lv.mouseInside && r.alternateKeyPressed == lv.alternateKeyPressed
  {
    var u := UpdateButtonsState(lv, w);
    assert Current.ZoomButton(Lift(u, false), w) == Current.ZoomButton(Lift(lv, false), w);
  }

  /**
   * Outside moving to a window and toggling full screen, the legacy view steps exactly as
   * the current one does: the same hover rules, and the same zoom rule on a flags change.
   */
  lemma StepsAgree(lv: LegacyView, w: Option<Window>, e: Current.Event, f: bool)
    requires Current.SlotsMatch(lv.buttons)
    requires !Current.Refreshes(e)
    ensures Lift(Step(lv, w, e), f) == Current.Step(Lift(lv, f), w, e)
  {}

  /** Mouse entry reveals every legacy symbol; mouse exit and window notifications hide them. */
  lemma HoverEvents(lv: LegacyView, w: Option<Window>, e: Current.Event)
    requires Current.SlotsMatch(lv.buttons)
    requires e.MouseEntered? || e.MouseExited? || e.WindowChanged?
    ensures var r := Step(lv, w, e);
      && r.mouseInside == e.MouseEntered?
      && forall i :: 0 <= i < |r.buttons| ==>
           r.buttons[i].displaySymbol == e.MouseEntered? && r.buttons[i].enabled == lv.buttons[i].enabled
  {}

  /**
   * The legacy `performButtonAction(_:)`: always the perform variant, and the full-screen
   * kind toggles full screen. The source's `default: fatalError` arm has no counterpart:
   * the four cases below are exhaustive. The did-hook runs even when there is no window.
   */
  function Click(lv: LegacyView, w: Option<Window>, slot: nat, delegate: Option<bool>): (t: seq<Current.Call>)
    requires slot < |lv.buttons|
    ensures t == Current.Click(Lift(lv, false), w, slot, delegate)
    ensures forall a :: a in Current.WindowActions(t) ==> IsPerformVariant(a) || a == ToggleFullScreen
    ensures delegate == Some(true) ==> Current.DidPerform(lv.buttons[slot].kind) in t
  {
    var k := lv.buttons[slot].kind;
    var action := match k
      case CloseButton => PerformClose
      case MiniaturizeButton => PerformMiniaturize
      case ZoomAndFullscreenButton(false) => PerformZoom
      case ZoomAndFullscreenButton(true) => ToggleFullScreen;
    assert action == Action(k, true);
    var acted := if w.Some? then [Current.Perform(action)] else [];
    match delegate
    case None => acted
    case Some(answer) =>
      if answer then Current.AroundAction(k, acted) else [Current.WillPerform(k)]
  }

  /** A vetoed legacy click makes no call beyond the will-hook. */
  lemma VetoStopsEverything(lv: LegacyView, w: Option<Window>, slot: nat)
    requires slot < |lv.buttons|
    ensures Click(lv, w, slot, Some(false)) == [Current.WillPerform(lv.buttons[slot].kind)]
    ensures Current.WindowActions(Click(lv, w, slot, Some(false))) == []
  {}
}

=== FILE: options.dfy ===
/** Swift's optionals: `None` plays the part of `nil`. */
module Options {

  datatype Option<+T> = None | Some(value: T)
}

=== FILE: view_properties.dfy ===
/**
 * The view's inspectable image properties in Sources/WindowButtonsView.swift: the icons of
 * the close and miniaturize buttons, the three icons the zoom button switches between,
 * the shared inactive background, and the per-button active backgrounds.
 */
module ViewProperties {
  import opened Options
  import opened ButtonTypes
  import opened Windows
  import opened Buttons
  import opened ButtonsView

  /** The `closeImage` and `miniaturizeImage` setters; the zoom button's icon has properties of its own. */
  function SetIcon(v: View, t: ButtonType, img: Image): (r: View)
    requires SlotsMatch(v.buttons) && !t.ZoomAndFullscreenButton?
    ensures SlotsMatch(r.buttons) && OnlyButtonsChanged(r, v)
    ensures Valid(v) ==> Valid(r)
    ensures ButtonFor(r.buttons, t).image == Some(img)
    ensures ButtonFor(r.buttons, t).(image := ButtonFor(v.buttons, t).image) == ButtonFor(v.buttons, t)
    ensures forall u :: !SameButton(u, t) ==> ButtonFor(r.buttons, u) == ButtonFor(v.buttons, u)
  {
    var r := v.(buttons := Replace(v.buttons, t, SetImage(ButtonFor(v.buttons, t), Some(img))));
    assert forall u :: !SameButton(u, t) ==> Index(u) != Index(t) by {
      forall u ensures !SameButton(u, t) ==> Index(u) != Index(t) {
        IndexIdentifiesButton(u, t);
      }
    }
    assert Valid(v) ==> Valid(r) by {
      if Valid(v) {
        ValidAfterButtonChange(v, r);
      }
    }
    r
  }

  /** Stores one of the zoom button's three icons in the view, and nothing else. */
  function StoreIcon(v: View, c: IconChoice, img: Option<Image>): (r: View)
    ensures IconImage(r, c) == img
    ensures forall d :: d != c ==> IconImage(r, d) == IconImage(v, d)
    ensures r.buttons == v.buttons && r.mouseInside == v.mouseInside && r.alternateKeyPressed == v.alternateKeyPressed
    ensures r.unactiveBackgroundImage == v.unactiveBackgroundImage && r.forceAction == v.forceAction
    ensures Valid(v) ==> Valid(r)
  {
    match c
    case ZoomIcon => v.(zoomImage := img)
    case FullscreenIcon => v.(fullscreenImage := img)
    case FullscreenOffIcon => v.(fullscreenOffImage := img)
  }

  /**
   * The `zoomImage`, `fullscreenImage` and `fullscreenOffImage` properties: store the icon,
   * then refresh the zoom button, so that a button currently showing that icon shows the new one.
   */
  function SetZoomIcon(v: View, w: Option<Window>, c: IconChoice, img: Option<Image>): (r: View)
    requires SlotsMatch(v.buttons)
    ensures SlotsMatch(r.buttons)
    ensures Valid(v) ==> Valid(r)
    ensures IconImage(r, c) == img
    ensures forall d :: d != c ==> IconImage(r, d) == IconImage(v, d)
    ensures r.mouseInside == v.mouseInside && r.alternateKeyPressed == v.alternateKeyPressed
    ensures r.unactiveBackgroundImage == v.unactiveBackgroundImage && r.forceAction == v.forceAction
    ensures r.buttons[0] == v.buttons[0] && r.buttons[1] == v.buttons[1]
    ensures r.buttons[2] == ZoomButton(r.(buttons := v.buttons), w)
    ensures r.buttons[2].enabled == v.buttons[2].enabled
    ensures w.Some? && ZoomTable(w.value.canGoFullscreen, w.value.inFullScreen, v.alternateKeyPressed).1 == c ==>
      r.buttons[2].image == img
    ensures w.None? && c == ZoomIcon ==> r.buttons[2].image == img
  {
    var stored := StoreIcon(v, c, img);
    var r := UpdateZoomAndFullscreenButton(stored, w);
    assert r.(buttons := v.buttons) == stored;
    r
  }

  /**
   * Setting an icon to the value it already has changes nothing, provided the zoom button
   * is already up to date with the window.
   */
  lemma SameIconIsNoChange(v: View, w: Option<Window>, c: IconChoice)
    requires SlotsMatch(v.buttons) && v.buttons[2] == ZoomButton(v, w)
    ensures SetZoomIcon(v, w, c, IconImage(v, c)) == v
  {
    var r := SetZoomIcon(v, w, c, IconImage(v, c));
    assert StoreIcon(v, c, IconImage(v, c)) == v;
    assert r.buttons == v.buttons;
  }

  /** Setting the same icon twice is the same as setting it once. */
  lemma SetZoomIconIdempotent(v: View, w: Option<Window>, c: IconChoice, img: Option<Image>)
    requires SlotsMatch(v.buttons)
    ensures SetZoomIcon(SetZoomIcon(v, w, c, img), w, c, img) == SetZoomIcon(v, w, c, img)
  {
    var r := SetZoomIcon(v, w, c, img);
    assert ZoomButton(r, w) == ZoomButton(r.(buttons := v.buttons), w);
    SameIconIsNoChange(r, w, c);
  }

  /**
   * The `unactiveBackgroundImage` property: every button takes the new inactive background,
   * so every disabled button now draws it.
   */
  function SetUnactiveBackground(v: View, img: Image): (r: View)
    requires SlotsMatch(v.buttons)
    ensures SlotsMatch(r.buttons)
    ensures Valid(v) ==> Valid(r)
    ensures r.unactiveBackgroundImage == img
    ensures r.(unactiveBackgroundImage := v.unactiveBackgroundImage, buttons := v.buttons) == v
    ensures |r.buttons| == |v.buttons|
    ensures forall i :: 0 <= i < |r.buttons| ==> r.buttons[i] == SetUnactiveBackgroundImage(v.buttons[i], img)
    ensures forall i, w, h :: 0 <= i < |r.buttons| && !r.buttons[i].enabled ==> Draw(r.buttons[i], w, h).backgroundImage == img
  {
    var bs := seq(|v.buttons|, i requires 0 <= i < |v.buttons| => SetUnactiveBackgroundImage(v.buttons[i], img));
    v.(unactiveBackgroundImage := img, buttons := bs)
  }

  // ---------------------------------------------------------------------------
  // Active backgrounds

  /**
   * The active background the button of a kind draws. The `closeBackgroundImage` getter
   * reads exactly this; it is also what all three background getters evidently mean to read.
   */
  function BackgroundImageFor(v: View, t: ButtonType): (img: Image)
    requires SlotsMatch(v.buttons)
    ensures forall w, h :: Draw(ButtonFor(v.buttons, t), w, h).background == ActiveBackground ==>
      Draw(ButtonFor(v.buttons, t), w, h).backgroundImage == img
    ensures forall w, h :: var f := Draw(ButtonFor(v.buttons, t).(enabled := true), w, h);
      f.background == ActiveBackground ==> f.backgroundImage == img
    ensures Draw(ButtonFor(v.buttons, t).(enabled := true, displaySymbol := true), None, false).backgroundImage == img
  {
    ButtonFor(v.buttons, t).backgroundImage
  }

  /**
   * The three background getters as written: the close getter reads the drawn background,
   * the miniaturize and zoom getters force-unwrap NSButton's alternate image. `None` stands
   * for the crash that force-unwrap gives while no alternate image is set.
   */
  function BackgroundGetterAsWritten(v: View, t: ButtonType): (r: Option<Image>)
    requires SlotsMatch(v.buttons)
    ensures t.CloseButton? ==> r == Some(BackgroundImageFor(v, t))
    ensures !t.CloseButton? ==> r == ButtonFor(v.buttons, t).alternateImage
  {
    match t
    case CloseButton => Some(ButtonFor(v.buttons, t).backgroundImage)
    case _ => ButtonFor(v.buttons, t).alternateImage
  }

  /**
   * The `closeBackgroundImage`, `miniaturizeBackgroundImage` and
   * `zoomAndFullscreenBackgroundImage` setters as written: they store NSButton's alternate
   * image, which the cell never draws. No drawing of any button changes; the close getter
   * keeps answering the old background, while the miniaturize and zoom getters read the
   * undrawn image back.
   */
  function SetBackgroundAsWritten(v: View, t: ButtonType, img: Image): (r: View)
    requires SlotsMatch(v.buttons)
    ensures SlotsMatch(r.buttons) && OnlyButtonsChanged(r, v)
    ensures Valid(v) ==> Valid(r)
    ensures ButtonFor(r.buttons, t).alternateImage == Some(img)
    ensures ButtonFor(r.buttons, t).(alternateImage := ButtonFor(v.buttons, t).alternateImage) == ButtonFor(v.buttons, t)
    ensures forall u :: !SameButton(u, t) ==> ButtonFor(r.buttons, u) == ButtonFor(v.buttons, u)
    ensures forall u :: BackgroundImageFor(r, u) == BackgroundImageFor(v, u)
    ensures forall u, w, h :: Draw(ButtonFor(r.buttons, u), w, h) == Draw(ButtonFor(v.buttons, u), w, h)
    ensures BackgroundGetterAsWritten(r, CloseButton) == BackgroundGetterAsWritten(v, CloseButton)
    ensures !t.CloseButton? ==> BackgroundGetterAsWritten(r, t) == Some(img)
  {
    var r := v.(buttons := Replace(v.buttons, t, SetAlternateImage(ButtonFor(v.buttons, t), Some(img))));
    assert forall u :: !SameButton(u, t) ==> Index(u) != Index(t) by {
      forall u ensures !SameButton(u, t) ==> Index(u) != Index(t) {
        IndexIdentifiesButton(u, t);
      }
    }
    assert Valid(v) ==> Valid(r) by {
      if Valid(v) {
        ValidAfterButtonChange(v, r);
      }
    }
    r
  }

  /**
   * On a fresh view no alternate image is set, so reading the miniaturize or zoom
   * background crashes, while the close background reads "closeBackground".
   */
  lemma FreshBackgroundGetters()
    ensures BackgroundGetterAsWritten(Init(), CloseButton) == Some("closeBackground")
    ensures BackgroundGetterAsWritten(Init(), MiniaturizeButton).None?
    ensures forall f :: BackgroundGetterAsWritten(Init(), ZoomAndFullscreenButton(f)).None?
  {}

  /**
   * As written, the miniaturize and zoom getters read back what was set, yet the button
   * still draws its old active background: the getter and the drawing disagree.
   */
  lemma GetterDisagreesWithDrawing(v: View, t: ButtonType, img: Image)
    requires SlotsMatch(v.buttons) && !t.CloseButton? && img != BackgroundImageFor(v, t)
    ensures var r := SetBackgroundAsWritten(v, t, img);
      && BackgroundGetterAsWritten(r, t) == Some(img)
      && forall w, h :: Draw(ButtonFor(r.buttons, t), w, h).background == ActiveBackground ==>
           Draw(ButtonFor(r.buttons, t), w, h).backgroundImage != img
  {}

  /** As written, setting a new close background neither reads back nor shows up as the active background. */
  lemma CloseBackgroundIsLost(v: View, img: Image)
    requires SlotsMatch(v.buttons) && img != BackgroundImageFor(v, CloseButton)
    ensures BackgroundGetterAsWritten(SetBackgroundAsWritten(v, CloseButton, img), CloseButton) != Some(img)
    ensures forall w, h ::
      var f := Draw(ButtonFor(SetBackgroundAsWritten(v, CloseButton, img).buttons, CloseButton), w, h);
      f.background == ActiveBackground ==> f.backgroundImage != img
  {}

  /**
   * A concrete instance: a fresh view whose close background is set to "red", in a main
   * window, still draws "closeBackground" for its enabled close button.
   */
  lemma CloseBackgroundCounterexample()
    ensures var v := SetBackgroundAsWritten(Init(), CloseButton, "red");
      && BackgroundGetterAsWritten(v, CloseButton) == Some("closeBackground")
      && Draw(ButtonFor(v.buttons, CloseButton), Some(Window(true, true, true, false, true)), false).backgroundImage
         == "closeBackground"
  {}

  /**
   * The background setters as evidently intended: the button's active background becomes
   * the new image, the getter reads it back, and the button draws it whenever it is active.
   */
  function SetBackground(v: View, t: ButtonType, img: Image): (r: View)
    requires SlotsMatch(v.buttons)
    ensures SlotsMatch(r.buttons) && OnlyButtonsChanged(r, v)
    ensures Valid(v) ==> Valid(r)
    ensures BackgroundImageFor(r, t) == img
    ensures forall w, h :: Draw(ButtonFor(r.buttons, t), w, h).background == ActiveBackground ==>
      Draw(ButtonFor(r.buttons, t), w, h).backgroundImage == img
    ensures ButtonFor(r.buttons, t).(backgroundImage := ButtonFor(v.buttons, t).backgroundImage) == ButtonFor(v.buttons, t)
    ensures forall u :: !SameButton(u, t) ==> ButtonFor(r.buttons, u) == ButtonFor(v.buttons, u)
  {
    var r := v.(buttons := Replace(v.buttons, t, SetBackgroundImage(ButtonFor(v.buttons, t), img)));
    assert forall u :: !SameButton(u, t) ==> Index(u) != Index(t) by {
      forall u ensures !SameButton(u, t) ==> Index(u) != Index(t) {
        IndexIdentifiesButton(u, t);
      }
    }
    assert Valid(v) ==> Valid(r) by {
      if Valid(v) {
        ValidAfterButtonChange(v, r);
      }
    }
    r
  }

  /** With the intended setter, setting then getting any button's background is the identity on the new image. */
  lemma BackgroundRoundTrip(v: View, t: ButtonType, img: Image)
    requires SlotsMatch(v.buttons)
    ensures BackgroundImageFor(SetBackground(v, t, img), t) == img
    ensures SetBackground(SetBackground(v, t, img), t, img) == SetBackground(v, t, img)
  {}
}

=== FILE: windows.dfy ===
/**
 * What the button controller reads from its host window. The NSWindow extension of
 * Sources/WindowButtonsView.swift derives four capability flags from the window's
 * collection behaviour and style mask; the cell also asks whether the window is main.
 * The view reaches the window through an optional, so every reader takes an
 * `Option<Window>` in which `None` stands for "the view is not in a window".
 */
module Windows {
  import opened Options

  /** A snapshot of the host window, read afresh at each event. */
  datatype Window = Window(
    canClose: bool,         // style mask contains the closable bit
    canMiniaturize: bool,   // style mask contains the miniaturizable bit
    canGoFullscreen: bool,  // collection behaviour contains full-screen-primary
    inFullScreen: bool,     // style mask contains the full-screen bit
    isMainWindow: bool)

  /** `window?.canClose == true` */
  predicate CanClose(w: Option<Window>) {
    w.Some? && w.value.canClose
  }

  /** `window?.canMiniaturize == true` */
  predicate CanMiniaturize(w: Option<Window>) {
    w.Some? && w.value.canMiniaturize
  }

  /** `window?.canGoFullscreen == true` */
  predicate CanGoFullscreen(w: Option<Window>) {
    w.Some? && w.value.canGoFullscreen
  }

  /** `window?.inFullScreen == true` */
  predicate InFullScreen(w: Option<Window>) {
    w.Some? && w.value.inFullScreen
  }

  /** `window?.inFullScreen == false`: a missing window is not "not in full screen" either. */
  predicate NotFullScreen(w: Option<Window>) {
    w.Some? && !w.value.inFullScreen
  }

  /** `window?.isMainWindow == true` */
  predicate IsMain(w: Option<Window>) {
    w.Some? && w.value.isMainWindow
  }

  /** The two optional comparisons partition the windowed case and both fail without a window. */
  lemma FullScreenTests(w: Option<Window>)
    ensures w.Some? ==> (NotFullScreen(w) <==> !InFullScreen(w))
    ensures w.None? ==> !NotFullScreen(w) && !InFullScreen(w)
  {}
}
